=== FILE: README.md ===
# Subscription vault billing core, in Dafny

This project models the billing and lifecycle core of the Soroban `subscription_vault`
contract. In that contract, subscribers prepay a vault per subscription. A billing engine
charges one interval at a time, either singly or in admin-only batches. Merchants accumulate
what was charged and withdraw it, also in batches. An admin can stop the contract, rotate the
admin role and recover stranded funds.

The contract's instance storage is one immutable record, `State.Vault`. It holds the
subscriptions keyed by id, the id counter, the admin, `min_topup`, the emergency-stop flag,
per-merchant balances and, for each subscription, the billing period its last interval charge
settled. The current ledger time `now` is a parameter. Callers arrive already authenticated
as principal values. Admin operations compare the caller with the stored admin. Pause, resume
and cancel compare it with the record's subscriber. A deposit takes no depositor (see
"## Left out").

Modules:

- `Wrappers`, `Ints`: `Option`/`Result`/`Outcome`, and the u32/u64/i128 ranges as subset types.
- `Types`: the error enum with `to_code`, `BatchChargeResult`, the status enum and the subscription record.
- `SafeMath`: checked i128 arithmetic (`safe_add`, `safe_sub`, `safe_add_balance`, `safe_sub_balance`, `validate_non_negative`).
- `StateMachine`: `validate_status_transition`, `can_transition`, `get_allowed_transitions`.
- `State`: the vault record, `get_subscription` and `get_subscription_count`.
- `Ids`: the checked id allocator and `create_subscription`.
- `ChargeCore`: `charge_one` (interval charge) and `charge_usage_one` (metered charge).
- `Queries`: `compute_next_charge_info` / `get_next_charge_info`.
- `Admin`: admin checks, `set_min_topup`, emergency stop, admin rotation, stranded-fund recovery, `batch_charge`.
- `Merchant`: the ledger debit behind withdrawals, and `batch_withdraw_merchant_funds`.
- `Lifecycle`: pause, resume, cancel and `deposit_funds`.
- `Invariants`: vault well-formedness, and how each operation relates the vault before to the vault after.

Where the sources disagree, the model follows the code:

- `lib.rs` is a half-resolved merge. The model follows the delegating `charge_subscription`
  (lib.rs:630-632), the checked `_next_id` (lib.rs:736-749) and the `Error` enum of
  `types.rs`. The placeholder charge body at lib.rs:556-584 reports `InvalidStatusTransition`
  for a paused subscription. The tests expect `NotActive`, and so does the model.
- The merged charge body checks the end date right after loading the record (lib.rs:489-500),
  before anything looks at the status. The model keeps that order. A paused, cancelled or
  stalled subscription past its end date therefore reports `SubscriptionExpired`, not
  `NotActive`. No test covers that combination.
- `safe_sub(0, i128::MIN)` is `Underflow` in the tests (test.rs:709-713), although that
  result is too large rather than too small. `SafeMath.SafeSub` therefore reports `Underflow`
  for any out-of-range difference. `SafeMath.SafeAdd` reports `Overflow` for any
  out-of-range sum.
- `types.rs` lacks three variants that the code uses: `ContractStopped` (admin.rs:90),
  `SubscriptionLimitReached` (lib.rs:141-145) and `Underflow` (the arithmetic tests). The
  model adds them. Their codes (1105, 429 and 1104) are choices of the model. All other codes
  are the `types.rs` discriminants. Some tests expect other numbers (#400 for a bad
  transition, #1008 for a bad recovery amount). The proved properties are only that codes
  are non-zero, injective and decodable.
- The `Subscription` of `types.rs` has no `expiration` field, but the record in `lib.rs`
  (lib.rs:122-136) and the expiry guard use one. The model includes it.

## Model

| member | source | states |
|---|---|---|
| Types.ToCode | contracts/subscription_vault/src/types.rs:19-82 | every code is non-zero, so 0 stays free for success, and the code decodes back to its variant |
| Types.ToCodeInjective | contracts/subscription_vault/src/types.rs:19-75 | distinct variants have distinct codes |
| Types.ReportOf | contracts/subscription_vault/src/types.rs:84-92 | a batch entry is a success iff the outcome passed; success carries code 0 and failure carries the failing error's non-zero code |
| Types.ReportRoundTrip | contracts/subscription_vault/src/admin.rs:59-68 | a batch caller recovers the exact outcome of every item from its entry |
| SafeMath.SafeAdd | contracts/subscription_vault/src/test.rs:589-601 | exact i128 sum, or `Overflow` exactly when the sum leaves the i128 range |
| SafeMath.SafeSub | contracts/subscription_vault/src/test.rs:603-621 | exact i128 difference, which may be negative, or `Underflow` exactly when it leaves the range |
| SafeMath.SafeAddBalance | contracts/subscription_vault/src/test.rs:633-650 | a negative credit is `Underflow`; a credit past i128::MAX is `Overflow`; otherwise the exact sum |
| SafeMath.SafeSubBalance | contracts/subscription_vault/src/test.rs:652-676 | succeeds iff `0 <= amount <= balance`, giving the non-negative difference (exactly 0 allowed); otherwise `Underflow` |
| SafeMath.ValidateNonNegative | contracts/subscription_vault/src/test.rs:624-631 | fails with `Underflow` iff the value is negative |
| SafeMath.SubAfterAdd | contracts/subscription_vault/src/test.rs:792-832 | debiting what was just credited restores the balance |
| SafeMath.AddAfterSub | contracts/subscription_vault/src/test.rs:792-832 | crediting what was just debited restores the balance |
| StateMachine.ValidateStatusTransition | contracts/subscription_vault/src/lib.rs:174-210 | passes iff the status is unchanged or the pair is an edge of the documented table; otherwise `InvalidStatusTransition` |
| StateMachine.AllowedTransitions | contracts/subscription_vault/src/lib.rs:222-239 | lists exactly the different statuses reachable by a valid transition, without duplicates |
| StateMachine.CanTransitionTable | contracts/subscription_vault/src/lib.rs:252-254 | `can_transition` agrees with the table; a same-status move always passes; nothing leaves `Cancelled` |
| StateMachine.CancelledAbsorbing | contracts/subscription_vault/src/types.rs:94-127 | every chain of valid transitions that starts in `Cancelled` stays there |
| State.GetSubscription | contracts/subscription_vault/src/lib.rs:676-679 | the stored record, or `NotFound` exactly when the id is absent |
| Ids.NextId | contracts/subscription_vault/src/lib.rs:725-749 | below the ceiling it returns the current count and stores count + 1; at u32::MAX it fails with `SubscriptionLimitReached` |
| Ids.AllocationsAreConsecutive | contracts/subscription_vault/src/lib.rs:725-735 | n successive allocations return count, count + 1, ..., count + n - 1, so no id is reused |
| Ids.FreshIdsStartAtZero | contracts/subscription_vault/src/lib.rs:715-723 | on a fresh vault the ids handed out are 0, 1, 2, ... |
| Ids.ExhaustedStaysExhausted | contracts/subscription_vault/src/lib.rs:740-744 | at the ceiling every retry fails and the counter never moves |
| Ids.CreateSubscription | contracts/subscription_vault/src/lib.rs:391-432 | allocates the id first; on success stores an Active record with zero balance and last payment `now` under that id, leaving other records alone |
| ChargeCore.ChargeOne | contracts/subscription_vault/src/lib.rs:484-510 | gates in order `NotFound`, `SubscriptionExpired` (now >= expiration, checked right after the load whatever the status), `NotActive`, `Replay`, `Overflow` (last payment + interval past u64::MAX), `IntervalNotElapsed`, each changing nothing; a short balance only records `InsufficientBalance`; success iff all gates pass and the amounts are in range, and then moves exactly `amount` to the merchant, sets the last payment to `now` and settles the period |
| ChargeCore.ChargeUsageOne | contracts/subscription_vault/src/lib.rs:634-665 | gates `NotFound`, `NotActive`, `UsageNotEnabled`, `InvalidAmount`, `InsufficientPrepaidBalance`; success lowers only the balance, by exactly the usage, and a balance drained to 0 becomes `InsufficientBalance` |
| ChargeCore.ExpiryPrecedesStatus | contracts/subscription_vault/src/lib.rs:489-500 | a subscription that is not Active but past its end date reports `SubscriptionExpired`, never `NotActive`, and nothing changes |
| ChargeCore.ReplayAfterSuccess | contracts/subscription_vault/src/test.rs:2686-2704 | retrying a successful charge at the same time reports `Replay` and changes nothing |
| ChargeCore.InsufficientBalanceIsSticky | contracts/subscription_vault/src/test.rs:1095-1153 | after an insufficient-balance failure the balance and last payment are kept and every later charge fails without effect |
| ChargeCore.ChargeKeepsPeriodsTracked | contracts/subscription_vault/src/test.rs:2609-2638 | interval charges keep every settled period equal to the billing period of the record's last payment |
| ChargeCore.SuccessiveChargesAdvance | contracts/subscription_vault/src/test.rs:2609-2638 | a successful charge of a subscription charged before comes at least one interval after the last payment and settles a strictly later billing period than the one recorded |
| ChargeCore.DueNotReplayed | contracts/subscription_vault/src/test.rs:2609-2638 | once a full non-zero interval has passed since the last payment, the replay record does not refuse the charge, whatever was settled before |
| ChargeCore.ChargeAtDueTimeSucceeds | contracts/subscription_vault/src/test.rs:3441-3447 | a charge at exactly last payment + interval succeeds for an Active, unexpired, funded subscription, including one charged before, and records `now` as the last payment |
| ChargeCore.EarlyChargeOutcome | contracts/subscription_vault/src/test.rs:2287-2322 | a charge before the interval has elapsed changes nothing; it reports `Replay` exactly when an earlier charge settled the period `now` falls in, and `IntervalNotElapsed` otherwise (always on a first charge) |
| ChargeCore.ChargeConservesValue | contracts/subscription_vault/src/test.rs:2491-2523 | a successful charge moves value from the subscriber to the merchant without creating or destroying any |
| Queries.ComputeNextChargeInfo | contracts/subscription_vault/src/lib.rs:268-287 | the timestamp is the earliest time the interval gate opens, saturated at u64::MAX; a charge is expected iff the status is Active or InsufficientBalance |
| Queries.GetNextChargeInfo | contracts/subscription_vault/src/lib.rs:690-694 | the estimate of the stored record, or `NotFound` |
| Queries.ChargeOnlyWhenExpected | contracts/subscription_vault/src/test.rs:1589-1604 | a successful charge implies the estimate expected one and its time had come |
| Queries.NotExpectedMeansNoCharge | contracts/subscription_vault/src/lib.rs:280-286 | when no charge is expected, every charge attempt fails with no effect: `SubscriptionExpired` once the end date is reached, `NotActive` before it |
| Queries.ChargeAdvancesSchedule | contracts/subscription_vault/src/test.rs:1368-1393 | after a successful charge the estimate is one interval after that charge |
| Queries.OverflowingDueTimeIsReported | contracts/subscription_vault/src/test.rs:1534-1561 | when last payment + interval is past u64::MAX the estimate saturates at u64::MAX and a charge reaching the interval gate reports `Overflow` |
| Admin.RequireAdmin | contracts/subscription_vault/src/admin.rs:22-27 | the stored admin, or `Unauthorized` when none is stored |
| Admin.AuthorizeAdmin | contracts/subscription_vault/src/admin.rs:29-34 | passes exactly for the stored admin; otherwise `Unauthorized` |
| Admin.SetMinTopup | contracts/subscription_vault/src/admin.rs:29-39 | only the stored admin succeeds; then the minimum reads back exactly and nothing else changes |
| Admin.GetMinTopup | contracts/subscription_vault/src/admin.rs:41-46 | the configured minimum, or `NotFound` |
| Admin.RequireNotStopped | contracts/subscription_vault/src/admin.rs:78-94 | `ContractStopped` exactly while the flag is set; an unset flag counts as not stopped |
| Admin.EmergencyStop | contracts/subscription_vault/src/admin.rs:96-111 | only the stored admin succeeds; the flag is set and nothing else changes |
| Admin.ResumeContract | contracts/subscription_vault/src/admin.rs:113-127 | only the stored admin succeeds; the flag is cleared and nothing else changes |
| Admin.RotateAdmin | contracts/subscription_vault/src/lib.rs:338-347 | only the current admin succeeds; the new admin is stored and nothing else changes |
| Admin.RecoverStrandedFunds | contracts/subscription_vault/src/lib.rs:349-362 | a non-admin gets `Unauthorized`, a non-positive amount `InvalidRecoveryAmount`; success leaves every subscription, balance and setting of the vault exactly as it was (the token transfer itself is outside the model) |
| Admin.ChargeAll | contracts/subscription_vault/src/admin.rs:56-71 | one result per input id |
| Admin.BatchCharge | contracts/subscription_vault/src/admin.rs:48-72 | `ContractStopped` while stopped, then `Unauthorized` for anyone but the stored admin; otherwise one result per id, result i being the report of charging id i against the state the earlier ids left |
| Admin.ChargeAllAppend | contracts/subscription_vault/src/admin.rs:57-70 | charging a concatenation charges the first part, then the second from where the first left off |
| Admin.BatchEntrySemantics | contracts/subscription_vault/src/admin.rs:57-69 | result i is exactly the report of charging id i against the state left by items 0..i-1 |
| Admin.DoBatchCharge | contracts/subscription_vault/src/admin.rs:56-71 | the imperative loop computes the same vault and results as the fold |
| Admin.SettledPersistsThroughBatch | contracts/subscription_vault/src/admin.rs:57-70 | a subscription settled in this period stays settled and live through the rest of the batch |
| Admin.DuplicateInBatchIsReplay | contracts/subscription_vault/src/test.rs:2686-2704 | an id listed twice is charged at most once: after a success, later entries for it report `Replay` |
| Admin.RotationRevokesPreviousAdmin | contracts/subscription_vault/src/test.rs:3351-3375 | after rotation the previous admin is refused by every admin operation and the new admin is accepted |
| Admin.StopBlocksBatchUntilResume | contracts/subscription_vault/src/admin.rs:96-127 | while stopped, batch charging is refused for everyone; after resume the admin may batch again |
| Merchant.SingleWithdraw | contracts/subscription_vault/src/merchant.rs:14-21 | succeeds iff the amount is covered by the merchant's balance, debiting exactly it; an overdraft is `InsufficientBalance` |
| Merchant.WithdrawEntry | contracts/subscription_vault/src/merchant.rs:14-58 | an entry succeeds iff its amount is positive and covered; a non-positive amount or an overdraft reports `InsufficientBalance`; a failed entry changes nothing |
| Merchant.WithdrawAll | contracts/subscription_vault/src/merchant.rs:30-61 | one result per amount |
| Merchant.BatchWithdraw | contracts/subscription_vault/src/merchant.rs:22-62 | always answers, with one result per amount; result i is entry i against the balance the earlier entries left, and the balance drops by exactly the total of the successful entries without going negative |
| Merchant.WithdrawAllAccounting | contracts/subscription_vault/src/merchant.rs:14-21 | the balance drops by exactly the total of the successful entries, never goes negative, and nothing else changes |
| Merchant.WithdrawEntrySemantics | contracts/subscription_vault/src/merchant.rs:32-59 | result i is the outcome of entry i against the balance left by entries 0..i-1 |
| Lifecycle.ChangeStatus | contracts/subscription_vault/src/lib.rs:596-626 | `NotFound`, then `Unauthorized` for anyone but the subscriber, then `InvalidStatusTransition` for a move off the table; success changes only the status |
| Lifecycle.Pause | contracts/subscription_vault/src/lib.rs:607-614 | succeeds iff the subscription is Active or already Paused; only the status changes |
| Lifecycle.Resume | contracts/subscription_vault/src/lib.rs:616-623 | succeeds iff the subscription is not Cancelled; only the status changes |
| Lifecycle.Cancel | contracts/subscription_vault/src/lib.rs:597-605 | succeeds from every status; only the status changes |
| Lifecycle.DepositFunds | contracts/subscription_vault/src/test.rs:958-1045 | no minimum configured is `NotFound`; below the minimum is `BelowMinimumTopup` and at or above it succeeds unless the record is cancelled (`NotActive`); success credits exactly the amount (as the balances of test.rs:2560-2606 show) and changes nothing else |
| Lifecycle.PauseAndCancelIdempotent | contracts/subscription_vault/src/test.rs:273-340 | pausing twice equals pausing once; cancelling twice equals cancelling once |
| Lifecycle.PauseResumeRoundTrip | contracts/subscription_vault/src/test.rs:386-405 | pausing an Active subscription and resuming it restores the vault exactly |
| Lifecycle.CancelledIsFinal | contracts/subscription_vault/src/test.rs:261-271 | after cancelling, pause, resume and deposits are refused and cancelling again changes nothing |
| Invariants.ChargeOnePreserves | contracts/subscription_vault/src/types.rs:129-140 | an interval charge keeps the vault well formed, only keeps a status or lapses Active to InsufficientBalance, and leaves a cancelled record exactly as it was |
| Invariants.ChargeAllPreserves | contracts/subscription_vault/src/admin.rs:57-71 | a whole batch keeps the vault well formed, only lapses statuses from Active to InsufficientBalance, and leaves every cancelled record exactly as it was |
| Invariants.ChargeUsagePreserves | contracts/subscription_vault/src/lib.rs:646-650 | a usage charge keeps the vault well formed; its only status change is the lapse at zero balance |
| Invariants.ChangeStatusPreserves | contracts/subscription_vault/src/types.rs:129-140 | pause, resume and cancel keep the vault well formed and move statuses only along the table |
| Invariants.DepositPreserves | contracts/subscription_vault/src/lib.rs:469-474 | a deposit keeps the vault well formed, changes no status and never touches a cancelled record |
| Invariants.CreatePreserves | contracts/subscription_vault/src/lib.rs:725-735 | the new id was never used, so no record is overwritten, and the vault stays well formed |
| Invariants.WithdrawAllPreserves | contracts/subscription_vault/src/merchant.rs:14-21 | a batch withdrawal keeps every merchant balance non-negative and leaves subscriptions alone |
| Invariants.ChargeEvolvesIsEvolves | contracts/subscription_vault/src/types.rs:129-140 | the lapse from Active to InsufficientBalance is a legal transition, so charging only ever makes legal status changes |

## Left out

- Soroban storage, `Symbol` keys and the host: replaced by the `Vault` record.
- `require_auth`: the caller is a principal value. A missing authorisation, which panics in the contract, is modelled as `Unauthorized`.
- Token transfers in deposit, creation, withdrawal and recovery: the token contract is not visible, so only ledger effects and validation are modelled.
- Events and event structs: they have no effect on state.
- `init` and `get_admin`: plain stores and reads. `State.Initial` gives the post-`init` vault.
- `estimate_topup_for_intervals`, `get_subscriptions_by_merchant`, `list_subscriptions_by_subscriber`, `get_merchant_subscription_count`, `withdraw_subscriber_funds`: their implementations are not part of this model.
- Merge debris in lib.rs: the duplicate `Error` and status enums, the placeholder `charge_subscription` bodies, the wrapping `_next_id` (lib.rs:753-757) and the unreachable duplicate match arms of `get_allowed_transitions`.
- The single `withdraw_merchant_funds` entrypoint (merchant.rs:9-12) only checks authorisation in the code, so it has no member of its own. The batch's result entries have the `BatchChargeResult` shape, because the withdraw result type is not defined in these files.
- Merchant.SingleWithdraw: in the code, `do_single_withdraw` (merchant.rs:64-69) is a stub that always returns `Ok` and debits nothing. As written, every positive batch entry succeeds and no overdraft is refused. The model instead implements the behaviour documented at merchant.rs:14-21: a checked debit of the merchant's ledger, with an overdraft refused as `InsufficientBalance`.
- `subscription.rs` and `charge_core.rs` are not part of this model. Pause, resume, cancel, deposit and both charges are reconstructed from the documented contracts and the tests.
- The admin.rs at hand has no `do_get_admin`, `do_rotate_admin` or `do_recover_stranded_funds`, although lib.rs:335, lib.rs:346 and lib.rs:361 delegate to them in that order. `Admin.RotateAdmin` and `Admin.RecoverStrandedFunds` are therefore rebuilt from the lib.rs documentation and the tests (test.rs:1838-1873, test.rs:3320-3741).
- Lifecycle.ChangeStatus: only the subscriber may pause, resume or cancel. The tests show a stranger refused, but nothing shows whether the merchant may act.
- Lifecycle.DepositFunds: the depositor passed to `deposit_funds` (lib.rs:464) is only authenticated there, and the code that would use it further is not part of this model. So the model takes no depositor and does not compare one with the record's subscriber: any caller may fund any subscription. The credit itself comes from the tests, because the deposit body shown in lib.rs is a placeholder that credits nothing.
- Lifecycle.DepositFunds: a deposit never reactivates an InsufficientBalance subscription. The recovery test sets the status directly in storage, and `resume` is the modelled way back.
- Lifecycle.DepositFunds: the deposit body is a TODO in the code (lib.rs:476-478), and no test deposits after a cancel. The model refuses a deposit into a cancelled record with `NotActive`, keeping a cancelled record frozen. Which error to report there is the model's choice.
- ChargeCore.ChargeUsageOne: a usage charge does not credit the merchant, because nothing in the code or its documentation says it does.
- ChargeCore.ChargeOne: only the first two gates come from code. The merged body at lib.rs:489-500 loads the record (`NotFound`) and then checks the end date (`SubscriptionExpired`) before any status check, and the model keeps that order. Everything after that is a TODO there (lib.rs:502-503). The order of the later gates (`NotActive`, `Replay`, `Overflow`, `IntervalNotElapsed`, then the balance) is the model's choice, following the documentation at lib.rs:506-510 and the tests.
- ChargeCore.ChargeOne: when `last_payment_timestamp + interval_seconds` does not fit in a u64, the charge fails with `Overflow` (the error types.rs:73-74 documents for arithmetic overflow) rather than staying `IntervalNotElapsed` forever. The charge module is not part of this model, so placing this gate after `Replay` and before the interval gate is the model's choice. `Queries.ComputeNextChargeInfo` still saturates at u64::MAX, as the tests expect.
- ChargeCore.ChargeOne: replay protection is a stored last-settled billing period per subscription: `now / interval`, or `now` itself for a zero interval. The optional idempotency key of one merged `charge_subscription` signature is not modelled. Periods are aligned to multiples of the interval, so an early retry in the same aligned period as the last payment reports `Replay`, not `IntervalNotElapsed`. For example, with interval 100 and a charge at 100, retries at 150 and 199 are `Replay` (`ChargeCore.EarlyRetryInAlignedPeriodIsReplay`). An early charge in a later period, or before any charge, reports `IntervalNotElapsed`. With a zero interval, a second charge at the same instant is `Replay`, and any later instant is due.
- Ids.CreateSubscription: no validation of amount or interval, since the creation code shown performs none beyond allocating the id.

=== FILE: admin.dfy ===
/** Administration: the admin slot, minimum top-up, emergency stop, admin rotation, stranded
    fund recovery and the admin-only batch charge. */
module Admin {
  import opened Wrappers
  import opened Ints
  import opened Types
  import opened State
  import opened ChargeCore

  /** `require_admin`: the stored admin, or `Unauthorized` when none was ever stored. */
  function RequireAdmin(v: Vault): (r: Result<Address, Error>)
    ensures r.Ok? <==> v.admin.Some?
    ensures r.Ok? ==> r.value == v.admin.value
    ensures r.Err? ==> r.error == Unauthorized
  {
    match v.admin
    case None => Err(Unauthorized)
    case Some(a) => Ok(a)
  }

  /** The check every admin-only entrypoint performs: `caller` must be the stored admin. */
  function AuthorizeAdmin(v: Vault, caller: Address): (r: Outcome<Error>)
    ensures r.Pass? <==> v.admin == Some(caller)
    ensures r.Fail? ==> r.error == Unauthorized
  {
    match RequireAdmin(v)
    case Err(e) => Fail(e)
    case Ok(stored) => if caller != stored then Fail(Unauthorized) else Pass
  }

  /** `do_set_min_topup`: the admin replaces the minimum deposit; nothing else changes. */
  function SetMinTopup(v: Vault, caller: Address, minTopup: I128): (r: Result<Vault, Error>)
    ensures r.Ok? <==> v.admin == Some(caller)
    ensures r.Err? ==> r.error == Unauthorized
    ensures r.Ok? ==> GetMinTopup(r.value) == Ok(minTopup)
    ensures r.Ok? ==> r.value.(minTopup := v.minTopup) == v
  {
    match AuthorizeAdmin(v, caller)
    case Fail(e) => Err(e)
    case Pass => Ok(v.(minTopup := Some(minTopup)))
  }

  /** `get_min_topup`: the configured minimum, or `NotFound` before initialisation. */
  function GetMinTopup(v: Vault): (r: Result<I128, Error>)
    ensures r.Ok? <==> v.minTopup.Some?
    ensures r.Ok? ==> r.value == v.minTopup.value
    ensures r.Err? ==> r.error == NotFound
  {
    match v.minTopup
    case None => Err(NotFound)
    case Some(m) => Ok(m)
  }

  /** `is_stopped`: the stop flag, false when the slot was never written. */
  predicate IsStopped(v: Vault) {
    v.stopped == Some(true)
  }

  /** `require_not_stopped`: `ContractStopped` exactly while the stop flag is set. */
  function RequireNotStopped(v: Vault): (r: Outcome<Error>)
    ensures r.Fail? <==> v.stopped.GetOr(false)
    ensures r.Fail? ==> r.error == ContractStopped
  {
    if v.stopped.GetOr(false) then Fail(ContractStopped) else Pass
  }

  /** `do_emergency_stop`: the admin sets the stop flag; nothing else changes. */
  function EmergencyStop(v: Vault, caller: Address): (r: Result<Vault, Error>)
    ensures r.Ok? <==> v.admin == Some(caller)
    ensures r.Err? ==> r.error == Unauthorized
    ensures r.Ok? ==> IsStopped(r.value) && r.value.(stopped := v.stopped) == v
  {
    match AuthorizeAdmin(v, caller)
    case Fail(e) => Err(e)
    case Pass => Ok(v.(stopped := Some(true)))
  }

  /** `do_resume_contract`: the admin clears the stop flag; nothing else changes. */
  function ResumeContract(v: Vault, caller: Address): (r: Result<Vault, Error>)
    ensures r.Ok? <==> v.admin == Some(caller)
    ensures r.Err? ==> r.error == Unauthorized
    ensures r.Ok? ==> !IsStopped(r.value) && RequireNotStopped(r.value).Pass?
    ensures r.Ok? ==> r.value.(stopped := v.stopped) == v
  {
    match AuthorizeAdmin(v, caller)
    case Fail(e) => Err(e)
    case Pass => Ok(v.(stopped := Some(false)))
  }

  /** `rotate_admin`: the current admin hands the role to `newAdmin`, with immediate effect. */
  function RotateAdmin(v: Vault, caller: Address, newAdmin: Address): (r: Result<Vault, Error>)
    ensures r.Ok? <==> v.admin == Some(caller)
    ensures r.Err? ==> r.error == Unauthorized
    ensures r.Ok? ==> RequireAdmin(r.value) == Ok(newAdmin)
    ensures r.Ok? ==> r.value.(admin := v.admin) == v
  {
    match AuthorizeAdmin(v, caller)
    case Fail(e) => Err(e)
    case Pass => Ok(v.(admin := Some(newAdmin)))
  }

  /** `recover_stranded_funds`: admin only, and the amount must be positive. The token
      transfer and audit event are outside the model, so the vault itself is unchanged:
      in particular no subscription is touched. */
  function RecoverStrandedFunds(v: Vault, caller: Address, recipient: Address, amount: I128,
                                reason: RecoveryReason): (r: Result<Vault, Error>)
    ensures r.Ok? <==> v.admin == Some(caller) && amount > 0
    ensures v.admin != Some(caller) ==> r == Err(Unauthorized)
    ensures v.admin == Some(caller) && amount <= 0 ==> r == Err(InvalidRecoveryAmount)
    ensures r.Ok? ==> r.value.subscriptions == v.subscriptions && r.value == v
  {
    match AuthorizeAdmin(v, caller)
    case Fail(e) => Err(e)
    case Pass => if amount <= 0 then Err(InvalidRecoveryAmount) else Ok(v)
  }

  /** The per-id loop of `do_batch_charge`: charges each id in order against the state the
      previous charges left, recording one report per id; a failure neither stops the loop nor
      undoes earlier charges. */
  function ChargeAll(v: Vault, ids: seq<U32>, now: U64): (r: (Vault, seq<BatchChargeResult>))
    ensures |r.1| == |ids|
    decreases |ids|
  {
    if |ids| == 0 then (v, [])
    else
      var step := ChargeOne(v, ids[0], now);
      var rest := ChargeAll(step.vault, ids[1..], now);
      (rest.0, [ReportOf(step.outcome)] + rest.1)
  }

  /** `do_batch_charge`: refused with `ContractStopped` while stopped, with `Unauthorized`
      unless `caller` is the stored admin; otherwise the reports of `ChargeAll`. */
  function BatchCharge(v: Vault, caller: Address, ids: seq<U32>, now: U64)
    : (r: Result<(Vault, seq<BatchChargeResult>), Error>)
    ensures v.stopped.GetOr(false) ==> r == Err(ContractStopped)
    ensures !v.stopped.GetOr(false) && v.admin != Some(caller) ==> r == Err(Unauthorized)
    ensures r.Ok? <==> !v.stopped.GetOr(false) && v.admin == Some(caller)
    ensures r.Ok? ==> r.value == ChargeAll(v, ids, now) && |r.value.1| == |ids|
    ensures r.Ok? ==> forall i :: 0 <= i < |ids| ==>
              r.value.1[i] == ReportOf(ChargeOne(StateBefore(v, ids, i, now), ids[i], now).outcome)
  {
    match RequireNotStopped(v)
    case Fail(e) => Err(e)
    case Pass =>
      match AuthorizeAdmin(v, caller)
      case Fail(e) => Err(e)
      case Pass =>
        BatchEntriesSemantics(v, ids, now);
        Ok(ChargeAll(v, ids, now))
  }

  /** The state the batch has reached just before charging `ids[i]`. */
  function StateBefore(v: Vault, ids: seq<U32>, i: nat, now: U64): Vault
    requires i <= |ids|
  {
    ChargeAll(v, ids[..i], now).0
  }

  /** One unfolding of `ChargeAll`: the first id is charged against `v`, the rest against
      the state it leaves. */
  lemma ChargeAllFirst(v: Vault, ids: seq<U32>, now: U64)
    requires |ids| > 0
    ensures var step := ChargeOne(v, ids[0], now);
            var rest := ChargeAll(step.vault, ids[1..], now);
            ChargeAll(v, ids, now) == (rest.0, [ReportOf(step.outcome)] + rest.1)
  {
  }

  /** Charging `a + b` is charging `a`, then `b` from where `a` left off. */
  lemma {:induction false} ChargeAllAppend(v: Vault, a: seq<U32>, b: seq<U32>, now: U64)
    ensures var ra := ChargeAll(v, a, now);
            var rb := ChargeAll(ra.0, b, now);
            ChargeAll(v, a + b, now) == (rb.0, ra.1 + rb.1)
    decreases |a|
  {
    if |a| > 0 {
      var step := ChargeOne(v, a[0], now);
      var report := ReportOf(step.outcome);
      assert (a + b)[0] == a[0];
      assert (a + b)[1..] == a[1..] + b;
      ChargeAllAppend(step.vault, a[1..], b, now);
      var tail := ChargeAll(step.vault, a[1..], now);
      var rb := ChargeAll(tail.0, b, now);
      ChargeAllFirst(v, a, now);
      ChargeAllFirst(v, a + b, now);
      assert [report] + (tail.1 + rb.1) == ([report] + tail.1) + rb.1;
    } else {
      assert a + b == b;
      assert ChargeAll(v, a, now) == (v, []);
      assert [] + ChargeAll(v, b, now).1 == ChargeAll(v, b, now).1;
    }
  }

  /** Report `i` of a batch is exactly the report of charging `ids[i]` alone against the
      state the earlier entries left: per-entry results are independent and in input order. */
  lemma {:induction false} BatchEntrySemantics(v: Vault, ids: seq<U32>, i: nat, now: U64)
    requires i < |ids|
    ensures ChargeAll(v, ids, now).1[i] == ReportOf(ChargeOne(StateBefore(v, ids, i, now), ids[i], now).outcome)
    ensures StateBefore(v, ids, i + 1, now) == ChargeOne(StateBefore(v, ids, i, now), ids[i], now).vault
  {
    var pre := ids[..i];
    var s := StateBefore(v, ids, i, now);
    assert ids == pre + ids[i..];
    ChargeAllAppend(v, pre, ids[i..], now);
    assert ids[..i + 1] == pre + [ids[i]];
    ChargeAllAppend(v, pre, [ids[i]], now);
    var step := ChargeOne(s, ids[i], now);
    assert [ids[i]][1..] == [];
    assert [ReportOf(step.outcome)] + [] == [ReportOf(step.outcome)];
  }

  /** Subscription `id` was charged at `now` and would still be charged if asked: the
      condition under which a repeat reports `Replay`. */
  predicate SettledAndLive(v: Vault, id: U32, now: U64) {
    && id in v.subscriptions
    && v.subscriptions[id].status == Active
    && !Expired(v.subscriptions[id], now)
    && AlreadySettled(v, id, now)
  }

  /** Charging any id at the same `now` keeps a settled subscription settled and live. */
  lemma SettledPersists(v: Vault, x: U32, id: U32, now: U64)
    requires SettledAndLive(v, id, now)
    ensures SettledAndLive(ChargeOne(v, x, now).vault, id, now)
  {
  }

  /** Settled-and-live is kept by every later entry of the batch. */
  lemma {:induction false} SettledPersistsThroughBatch(v: Vault, ids: seq<U32>, k: nat, j: nat, id: U32, now: U64)
    requires k <= j <= |ids|
    requires SettledAndLive(StateBefore(v, ids, k, now), id, now)
    ensures SettledAndLive(StateBefore(v, ids, j, now), id, now)
    decreases j - k
  {
    if k < j {
      BatchEntrySemantics(v, ids, k, now);
      SettledPersists(StateBefore(v, ids, k, now), ids[k], id, now);
      SettledPersistsThroughBatch(v, ids, k + 1, j, id, now);
    }
  }

  /** A subscription listed twice in one batch is charged at most once: once an entry for it
      succeeds, every later entry for the same id reports `Replay`. */
  lemma {:induction false} DuplicateInBatchIsReplay(v: Vault, ids: seq<U32>, i: nat, j: nat, now: U64)
    requires i < j < |ids| && ids[i] == ids[j]
    requires ChargeAll(v, ids, now).1[i].success
    ensures ChargeAll(v, ids, now).1[j] == ReportOf(Fail(Replay))
  {
    BatchEntrySemantics(v, ids, i, now);
    var before := StateBefore(v, ids, i, now);
    assert ChargeOne(before, ids[i], now).outcome.Pass?;
    ReplayAfterSuccess(before, ids[i], now);
    SettledPersistsThroughBatch(v, ids, i + 1, j, ids[i], now);
    BatchEntrySemantics(v, ids, j, now);
  }

  /** `BatchEntrySemantics` for every entry at once. */
  lemma BatchEntriesSemantics(v: Vault, ids: seq<U32>, now: U64)
    ensures forall i :: 0 <= i < |ids| ==>
              ChargeAll(v, ids, now).1[i] == ReportOf(ChargeOne(StateBefore(v, ids, i, now), ids[i], now).outcome)
  {
    forall i | 0 <= i < |ids|
      ensures ChargeAll(v, ids, now).1[i] == ReportOf(ChargeOne(StateBefore(v, ids, i, now), ids[i], now).outcome)
    {
      BatchEntrySemantics(v, ids, i, now);
    }
  }

  /** The imperative form of the batch loop, one `charge_one` per id. */
  method DoBatchCharge(v: Vault, ids: seq<U32>, now: U64) returns (final: Vault, results: seq<BatchChargeResult>)
    ensures (final, results) == ChargeAll(v, ids, now)
  {
    final, results := v, [];
    var k := 0;
    while k < |ids|
      invariant 0 <= k <= |ids|
      invariant (final, results) == ChargeAll(v, ids[..k], now)
    {
      var step := ChargeOne(final, ids[k], now);
      ChargeAllAppend(v, ids[..k], [ids[k]], now);
      assert ids[..k + 1] == ids[..k] + [ids[k]];
      assert [ids[k]][1..] == [];
      assert [ReportOf(step.outcome)] + [] == [ReportOf(step.outcome)];
      final := step.vault;
      results := results + [ReportOf(step.outcome)];
      k := k + 1;
    }
    assert ids[..k] == ids;
  }

  /** After the admin role is rotated away, the previous admin is refused by every admin-only
      operation, and the new admin is accepted. */
  lemma RotationRevokesPreviousAdmin(v: Vault, previous: Address, successor: Address, m: I128, to: Address,
                                     amount: I128, reason: RecoveryReason, ids: seq<U32>, now: U64)
    requires RotateAdmin(v, previous, successor).Ok? && previous != successor
    ensures var v1 := RotateAdmin(v, previous, successor).value;
            && AuthorizeAdmin(v1, previous) == Fail(Unauthorized)
            && AuthorizeAdmin(v1, successor) == Pass
            && SetMinTopup(v1, previous, m) == Err(Unauthorized)
            && EmergencyStop(v1, previous) == Err(Unauthorized)
            && ResumeContract(v1, previous) == Err(Unauthorized)
            && RotateAdmin(v1, previous, successor) == Err(Unauthorized)
            && RecoverStrandedFunds(v1, previous, to, amount, reason) == Err(Unauthorized)
            && BatchCharge(v1, previous, ids, now).Err?
  {
  }

  /** While the emergency stop is on, batch charging is refused for everyone; resuming lifts it. */
  lemma StopBlocksBatchUntilResume(v: Vault, admin: Address, caller: Address, ids: seq<U32>, now: U64)
    requires EmergencyStop(v, admin).Ok?
    ensures var stopped := EmergencyStop(v, admin).value;
            && BatchCharge(stopped, caller, ids, now) == Err(ContractStopped)
            && ResumeContract(stopped, admin).Ok?
            && BatchCharge(ResumeContract(stopped, admin).value, admin, ids, now).Ok?
  {
  }
}

=== FILE: charge_core.dfy ===
/** The charge engine: one interval charge and one usage charge against a subscription's
    prepaid balance. */
module ChargeCore {
  import opened Wrappers
  import opened Ints
  import opened Types
  import opened State
  import opened SafeMath

  /** The subscription's end date has been reached: charges are refused at or after it. */
  predicate Expired(s: Subscription, now: U64) {
    s.expiration.Some? && now >= s.expiration.value
  }

  /** The billing period `now` falls in; with a zero interval every instant is its own period. */
  function BillingPeriod(s: Subscription, now: U64): U64 {
    if s.intervalSeconds == 0 then now else now / s.intervalSeconds
  }

  /** The period containing `now` has already been settled by an earlier interval charge. */
  predicate AlreadySettled(v: Vault, id: U32, now: U64)
    requires id in v.subscriptions
  {
    id in v.settledPeriods && v.settledPeriods[id] == BillingPeriod(v.subscriptions[id], now)
  }

  /** The due time `last_payment_timestamp + interval_seconds` is a u64; otherwise computing
      it overflows and the charge reports `Overflow` instead of wrapping. */
  predicate DueTimeFits(s: Subscription) {
    s.lastPaymentTimestamp + s.intervalSeconds <= U64_MAX
  }

  /** A full interval has passed since the stored last payment. */
  predicate IntervalElapsed(s: Subscription, now: U64) {
    now >= s.lastPaymentTimestamp + s.intervalSeconds
  }

  /** Every gate before the balance gate passes. */
  predicate Due(v: Vault, id: U32, now: U64) {
    && id in v.subscriptions
    && v.subscriptions[id].status == Active
    && !Expired(v.subscriptions[id], now)
    && !AlreadySettled(v, id, now)
    && DueTimeFits(v.subscriptions[id])
    && IntervalElapsed(v.subscriptions[id], now)
  }

  /** The vault after a settled interval charge: the record becomes `s'`, the merchant's
      balance becomes `mb`, and the period is recorded as settled. */
  function Settle(v: Vault, id: U32, s': Subscription, mb: I128, period: U64): Vault {
    v.(subscriptions := v.subscriptions[id := s'],
       merchantBalances := v.merchantBalances[s'.merchant := mb],
       settledPeriods := v.settledPeriods[id := period])
  }

  /** `charge_one`: charges one interval of subscription `id` at time `now`.
      Gates, in order: `NotFound`, `SubscriptionExpired`, `NotActive`, `Replay`, `Overflow`
      (due time past u64::MAX), `IntervalNotElapsed`; each leaves the vault untouched. A balance below `amount` records
      `InsufficientBalance` as the status and leaves everything else untouched. Otherwise the
      balance drops by `amount`, the last payment becomes `now`, the merchant is credited
      `amount`, and the period is marked settled. */
  function ChargeOne(v: Vault, id: U32, now: U64): (r: Step)
    ensures id !in v.subscriptions ==> r == Step(v, Fail(NotFound))
    ensures id in v.subscriptions && Expired(v.subscriptions[id], now)
            ==> r == Step(v, Fail(SubscriptionExpired))
    ensures id in v.subscriptions && !Expired(v.subscriptions[id], now)
            && v.subscriptions[id].status != Active
            ==> r == Step(v, Fail(NotActive))
    ensures id in v.subscriptions && v.subscriptions[id].status == Active
            && !Expired(v.subscriptions[id], now) && AlreadySettled(v, id, now)
            ==> r == Step(v, Fail(Replay))
    ensures id in v.subscriptions && v.subscriptions[id].status == Active
            && !Expired(v.subscriptions[id], now) && !AlreadySettled(v, id, now)
            && !DueTimeFits(v.subscriptions[id])
            ==> r == Step(v, Fail(Overflow))
    ensures id in v.subscriptions && v.subscriptions[id].status == Active
            && !Expired(v.subscriptions[id], now) && !AlreadySettled(v, id, now)
            && DueTimeFits(v.subscriptions[id]) && !IntervalElapsed(v.subscriptions[id], now)
            ==> r == Step(v, Fail(IntervalNotElapsed))
    ensures Due(v, id, now) && v.subscriptions[id].prepaidBalance < v.subscriptions[id].amount
            ==> r == Step(PutSubscription(v, id, v.subscriptions[id].(status := Status.InsufficientBalance)),
                          Fail(Error.InsufficientBalance))
    ensures r.outcome.Pass? <==>
            && Due(v, id, now)
            && 0 <= v.subscriptions[id].amount <= v.subscriptions[id].prepaidBalance
            && MerchantBalance(v, v.subscriptions[id].merchant) + v.subscriptions[id].amount <= I128_MAX
    ensures r.outcome.Pass? ==>
            var s := v.subscriptions[id];
            r.vault == Settle(v, id, s.(prepaidBalance := s.prepaidBalance - s.amount, lastPaymentTimestamp := now),
                              MerchantBalance(v, s.merchant) + s.amount, BillingPeriod(s, now))
    ensures r.outcome.Fail? && r.outcome.error != Error.InsufficientBalance ==> r.vault == v
  {
    if id !in v.subscriptions then Step(v, Fail(NotFound))
    else
      var s := v.subscriptions[id];
      if Expired(s, now) then Step(v, Fail(SubscriptionExpired))
      else if s.status != Active then Step(v, Fail(NotActive))
      else if AlreadySettled(v, id, now) then Step(v, Fail(Replay))
      else if !DueTimeFits(s) then Step(v, Fail(Overflow))
      else if !IntervalElapsed(s, now) then Step(v, Fail(IntervalNotElapsed))
      else if s.prepaidBalance < s.amount then
        Step(PutSubscription(v, id, s.(status := Status.InsufficientBalance)), Fail(Error.InsufficientBalance))
      else
        match SafeSubBalance(s.prepaidBalance, s.amount)
        case Err(e) => Step(v, Fail(e))
        case Ok(nb) =>
          match SafeAddBalance(MerchantBalance(v, s.merchant), s.amount)
          case Err(e) => Step(v, Fail(e))
          case Ok(mb) =>
            Step(Settle(v, id, s.(prepaidBalance := nb, lastPaymentTimestamp := now), mb, BillingPeriod(s, now)), Pass)
  }

  /** `charge_usage_one`: debits a metered `usage` from subscription `id`. Gates, in order:
      `NotFound`, `NotActive`, `UsageNotEnabled`, `InvalidAmount` (usage not positive),
      `InsufficientPrepaidBalance`; each leaves the vault untouched. On success only the
      balance changes, by exactly `usage`, and a balance drained to zero moves the status to
      `InsufficientBalance`. The interval schedule is not touched. */
  function ChargeUsageOne(v: Vault, id: U32, usage: I128): (r: Result<Vault, Error>)
    ensures id !in v.subscriptions ==> r == Err(NotFound)
    ensures id in v.subscriptions && v.subscriptions[id].status != Active ==> r == Err(NotActive)
    ensures (id in v.subscriptions && v.subscriptions[id].status == Active
             && !v.subscriptions[id].usageEnabled) ==> r == Err(UsageNotEnabled)
    ensures (id in v.subscriptions && v.subscriptions[id].status == Active
             && v.subscriptions[id].usageEnabled && usage <= 0) ==> r == Err(InvalidAmount)
    ensures (id in v.subscriptions && v.subscriptions[id].status == Active
             && v.subscriptions[id].usageEnabled && 0 < usage
             && usage > v.subscriptions[id].prepaidBalance) ==> r == Err(InsufficientPrepaidBalance)
    ensures r.Ok? <==>
            && id in v.subscriptions
            && v.subscriptions[id].status == Active
            && v.subscriptions[id].usageEnabled
            && 0 < usage <= v.subscriptions[id].prepaidBalance
    ensures r.Ok? ==>
            var s := v.subscriptions[id];
            var left := s.prepaidBalance - usage;
            r.value == PutSubscription(v, id, s.(prepaidBalance := left,
                                                 status := if left == 0 then Status.InsufficientBalance else Active))
  {
    if id !in v.subscriptions then Err(NotFound)
    else
      var s := v.subscriptions[id];
      if s.status != Active then Err(NotActive)
      else if !s.usageEnabled then Err(UsageNotEnabled)
      else if usage <= 0 then Err(InvalidAmount)
      else if usage > s.prepaidBalance then Err(InsufficientPrepaidBalance)
      else
        match SafeSubBalance(s.prepaidBalance, usage)
        case Err(e) => Err(e)
        case Ok(nb) =>
          var status := if nb == 0 then Status.InsufficientBalance else Active;
          Ok(PutSubscription(v, id, s.(prepaidBalance := nb, status := status)))
  }

  /** Retrying a charge that just succeeded, at the same time, reports `Replay` and changes
      nothing: the first settlement of a period is the only one. */
  lemma ReplayAfterSuccess(v: Vault, id: U32, now: U64)
    requires ChargeOne(v, id, now).outcome.Pass?
    ensures var v1 := ChargeOne(v, id, now).vault;
            ChargeOne(v1, id, now) == Step(v1, Fail(Replay))
  {
  }

  /** The end date is checked right after the record is loaded, before its status: a paused,
      cancelled or stalled subscription past its end date reports `SubscriptionExpired`. */
  lemma ExpiryPrecedesStatus(v: Vault, id: U32, now: U64)
    requires id in v.subscriptions && v.subscriptions[id].status != Active
    requires Expired(v.subscriptions[id], now)
    ensures ChargeOne(v, id, now) == Step(v, Fail(SubscriptionExpired))
    ensures ChargeOne(v, id, now).outcome != Fail(NotActive)
  {
  }

  /** An insufficient-balance failure is sticky: the balance and last payment are kept, and
      every later interval charge, at any time, fails and changes nothing: `SubscriptionExpired`
      once the end date is reached, `NotActive` before it. */
  lemma InsufficientBalanceIsSticky(v: Vault, id: U32, now: U64, later: U64)
    requires ChargeOne(v, id, now).outcome == Fail(Error.InsufficientBalance)
    ensures var v1 := ChargeOne(v, id, now).vault;
            && v1.subscriptions[id].prepaidBalance == v.subscriptions[id].prepaidBalance
            && v1.subscriptions[id].lastPaymentTimestamp == v.subscriptions[id].lastPaymentTimestamp
            && v1.subscriptions[id].status == Status.InsufficientBalance
            && ChargeOne(v1, id, later)
               == Step(v1, Fail(if Expired(v1.subscriptions[id], later) then SubscriptionExpired else NotActive))
  {
  }

  /** Cancelling a positive factor from a strict product inequality. */
  lemma MulCancelLess(m: nat, n: nat, i: nat)
    requires i > 0 && m * i < n * i
    ensures m < n
  {
    if m >= n {
      MulMonotone(n, m, i);
    }
  }

  /** Multiplication by a natural is monotone. */
  lemma MulMonotone(m: nat, n: nat, i: nat)
    requires m <= n
    ensures m * i <= n * i
  {
  }

  /** Quotients are unique: `x == a * i + b` with `0 <= b < i` fixes `x / i == a`. */
  lemma DivUnique(x: nat, i: nat, a: nat, b: nat)
    requires i > 0 && 0 <= b < i && x == a * i + b
    ensures x / i == a
  {
    var q := x / i;
    assert x == q * i + x % i;
    assert (a + 1) * i == a * i + i;
    assert (q + 1) * i == q * i + i;
    MulCancelLess(q, a + 1, i);
    MulCancelLess(a, q + 1, i);
  }

  /** `(t + i) / i == t / i + 1` for a positive period length. */
  lemma DivShift(t: nat, i: nat)
    requires i > 0
    ensures (t + i) / i == t / i + 1
  {
    assert t == (t / i) * i + t % i;
    assert t + i == (t / i + 1) * i + t % i;
    DivUnique(t + i, i, t / i + 1, t % i);
  }

  /** Division is monotone in the dividend. */
  lemma DivMonotone(a: nat, b: nat, i: nat)
    requires i > 0 && a <= b
    ensures a / i <= b / i
  {
    var qa, qb := a / i, b / i;
    assert a == qa * i + a % i;
    assert b == qb * i + b % i;
    assert (qb + 1) * i == qb * i + i;
    MulCancelLess(qa, qb + 1, i);
  }

  /** Every settled period is the billing period of the record's last payment: the link
      between the replay record and the schedule that makes replay protection sound. */
  predicate PeriodsTracked(v: Vault) {
    forall id :: id in v.settledPeriods ==>
      && id in v.subscriptions
      && v.settledPeriods[id] == BillingPeriod(v.subscriptions[id], v.subscriptions[id].lastPaymentTimestamp)
  }

  /** Interval charges keep the replay record in step with the last payments. */
  lemma ChargeKeepsPeriodsTracked(v: Vault, id: U32, now: U64)
    requires PeriodsTracked(v)
    ensures PeriodsTracked(ChargeOne(v, id, now).vault)
  {
  }

  /** The replay record never refuses a charge that is due: once a full (non-zero) interval
      has passed since the last payment, the current period is not the settled one. */
  lemma DueNotReplayed(v: Vault, id: U32, now: U64)
    requires PeriodsTracked(v) && id in v.subscriptions
    requires v.subscriptions[id].intervalSeconds > 0
    requires IntervalElapsed(v.subscriptions[id], now)
    ensures !AlreadySettled(v, id, now)
  {
    if id in v.settledPeriods {
      var s := v.subscriptions[id];
      DivShift(s.lastPaymentTimestamp, s.intervalSeconds);
      DivMonotone(s.lastPaymentTimestamp + s.intervalSeconds, now, s.intervalSeconds);
    }
  }

  /** A charge at exactly last payment + interval succeeds when the subscription is Active,
      not expired, and its balance covers the amount, whether or not it was charged before. */
  lemma ChargeAtDueTimeSucceeds(v: Vault, id: U32, now: U64)
    requires PeriodsTracked(v) && id in v.subscriptions
    requires var s := v.subscriptions[id];
             && s.status == Active && s.intervalSeconds > 0 && !Expired(s, now)
             && now == s.lastPaymentTimestamp + s.intervalSeconds
             && 0 <= s.amount <= s.prepaidBalance
             && MerchantBalance(v, s.merchant) + s.amount <= I128_MAX
    ensures ChargeOne(v, id, now).outcome == Pass
    ensures ChargeOne(v, id, now).vault.subscriptions[id].lastPaymentTimestamp == now
  {
    DueNotReplayed(v, id, now);
  }

  /** A charge before the interval has elapsed changes nothing. It reports `Replay` when an
      earlier charge settled the period `now` falls in, which for an aligned period happens to
      an early retry in the same period as the last payment; otherwise `IntervalNotElapsed`. */
  lemma EarlyChargeOutcome(v: Vault, id: U32, now: U64)
    requires PeriodsTracked(v) && id in v.subscriptions
    requires var s := v.subscriptions[id];
             s.status == Active && !Expired(s, now) && DueTimeFits(s) && !IntervalElapsed(s, now)
    ensures var s := v.subscriptions[id];
            var replay := id in v.settledPeriods && BillingPeriod(s, now) == BillingPeriod(s, s.lastPaymentTimestamp);
            ChargeOne(v, id, now) == Step(v, Fail(if replay then Replay else IntervalNotElapsed))
  {
  }

  /** A concrete early retry: interval 100, charged at 100, retried at 150 reports `Replay`,
      although last payment + interval (200) has not been reached. */
  lemma EarlyRetryInAlignedPeriodIsReplay(v: Vault, s: Subscription)
    requires v.subscriptions == map[0 := s] && v.settledPeriods == map[0 := 1]
    requires s.status == Active && s.expiration.None?
    requires s.intervalSeconds == 100 && s.lastPaymentTimestamp == 100
    ensures ChargeOne(v, 0, 150) == Step(v, Fail(Replay))
    ensures ChargeOne(v, 0, 199) == Step(v, Fail(Replay))
  {
  }

  /** A successful charge of a subscription that was charged before comes at least one
      interval after the previous charge and settles a strictly later billing period, so no
      period is ever charged twice. */
  lemma SuccessiveChargesAdvance(v: Vault, id: U32, now: U64)
    requires PeriodsTracked(v) && id in v.settledPeriods
    requires ChargeOne(v, id, now).outcome.Pass?
    ensures now >= v.subscriptions[id].lastPaymentTimestamp + v.subscriptions[id].intervalSeconds
    ensures BillingPeriod(v.subscriptions[id], now) > v.settledPeriods[id]
  {
    var s := v.subscriptions[id];
    var last := s.lastPaymentTimestamp;
    assert v.settledPeriods[id] == BillingPeriod(s, last);
    assert BillingPeriod(s, now) != BillingPeriod(s, last);
    if s.intervalSeconds > 0 {
      DivShift(last, s.intervalSeconds);
      DivMonotone(last + s.intervalSeconds, now, s.intervalSeconds);
    }
  }

  /** A successful interval charge moves value from the subscriber's prepaid balance to the
      merchant's balance without creating or destroying any. */
  lemma ChargeConservesValue(v: Vault, id: U32, now: U64)
    requires ChargeOne(v, id, now).outcome.Pass?
    ensures var v1 := ChargeOne(v, id, now).vault;
            var s := v.subscriptions[id];
            && v1.subscriptions[id].prepaidBalance + MerchantBalance(v1, s.merchant)
               == s.prepaidBalance + MerchantBalance(v, s.merchant)
            && v1.subscriptions[id].prepaidBalance == s.prepaidBalance - s.amount
  {
  }
}

=== FILE: ids.dfy ===
/** Subscription id allocation and subscription creation. */
module Ids {
  import opened Wrappers
  import opened Ints
  import opened Types
  import opened State

  /** The largest id the counter may reach; allocation stops there instead of wrapping. */
  const MAX_SUBSCRIPTION_ID: U32 := U32_MAX

  /** `_next_id`: hands out the current counter and advances it by one, or reports
      `SubscriptionLimitReached` once the counter sits at the ceiling. */
  function NextId(v: Vault): (r: Result<(Vault, U32), Error>)
    ensures r.Err? <==> SubscriptionCount(v) == MAX_SUBSCRIPTION_ID
    ensures r.Err? ==> r.error == SubscriptionLimitReached
    ensures r.Ok? ==>
      && r.value.1 == SubscriptionCount(v)
      && SubscriptionCount(r.value.0) == SubscriptionCount(v) + 1
      && r.value.0 == v.(nextId := Some(SubscriptionCount(v) + 1))
  {
    var current := SubscriptionCount(v);
    if current == MAX_SUBSCRIPTION_ID then Err(SubscriptionLimitReached)
    else Ok((v.(nextId := Some(current + 1)), current))
  }

  /** Runs `n` allocations in a row, stopping at the first failure; returns the final state
      and the ids handed out. */
  function AllocateMany(v: Vault, n: nat): (Vault, seq<U32>)
    decreases n
  {
    if n == 0 then (v, [])
    else match NextId(v)
      case Err(_) => (v, [])
      case Ok((v1, id)) =>
        var (v2, ids) := AllocateMany(v1, n - 1);
        (v2, [id] + ids)
  }

  /** Below the ceiling, `n` allocations yield exactly `c, c+1, ..., c+n-1`, where `c` is
      the counter, and leave the counter at `c + n`: ids are consecutive and never repeat. */
  lemma {:induction false} AllocationsAreConsecutive(v: Vault, n: nat)
    requires SubscriptionCount(v) + n <= MAX_SUBSCRIPTION_ID
    ensures |AllocateMany(v, n).1| == n
    ensures forall i :: 0 <= i < n ==> AllocateMany(v, n).1[i] == SubscriptionCount(v) + i
    ensures SubscriptionCount(AllocateMany(v, n).0) == SubscriptionCount(v) + n
    decreases n
  {
    if n > 0 {
      var r := NextId(v);
      assert r.Ok?;
      var (v1, id) := r.value;
      AllocationsAreConsecutive(v1, n - 1);
      var rest := AllocateMany(v1, n - 1).1;
      assert AllocateMany(v, n).1 == [id] + rest;
      forall i | 0 <= i < n
        ensures AllocateMany(v, n).1[i] == SubscriptionCount(v) + i
      {
        if i > 0 { assert AllocateMany(v, n).1[i] == rest[i - 1]; }
      }
    }
  }

  /** Starting from a fresh contract, creating `n` subscriptions' ids gives `0, 1, ..., n-1`. */
  lemma FreshIdsStartAtZero(admin: Address, minTopup: I128, n: nat)
    requires n <= MAX_SUBSCRIPTION_ID
    ensures AllocateMany(Initial(admin, minTopup), n).1 == seq(n, i => i)
  {
    var v := Initial(admin, minTopup);
    AllocationsAreConsecutive(v, n);
  }

  /** At the ceiling the very first allocation fails, so a run of `n` allocations hands out
      no id and leaves the state as it was. */
  lemma {:induction false} ExhaustedStaysExhausted(v: Vault, n: nat)
    requires SubscriptionCount(v) == MAX_SUBSCRIPTION_ID
    ensures AllocateMany(v, n) == (v, [])
  {
  }

  /** `create_subscription`: allocates the id first, so a full counter fails before anything
      is stored; then stores an `Active` record with an empty balance, whose last payment is
      the creation time. */
  function CreateSubscription(v: Vault, subscriber: Address, merchant: Address, amount: I128,
                              intervalSeconds: U64, usageEnabled: bool, expiration: Option<U64>,
                              now: U64): (r: Result<(Vault, U32), Error>)
    ensures r.Err? <==> SubscriptionCount(v) == MAX_SUBSCRIPTION_ID
    ensures r.Err? ==> r.error == SubscriptionLimitReached
    ensures r.Ok? ==>
      var (v', id) := r.value;
      && id == SubscriptionCount(v)
      && SubscriptionCount(v') == id + 1
      && v'.subscriptions.Keys == v.subscriptions.Keys + {id}
      && (forall k :: k in v.subscriptions && k != id ==> v'.subscriptions[k] == v.subscriptions[k])
      && v'.subscriptions[id] == Subscription(subscriber, merchant, amount, intervalSeconds, now,
                                               Active, 0, usageEnabled, expiration)
  {
    match NextId(v)
    case Err(e) => Err(e)
    case Ok((v1, id)) =>
      var sub := Subscription(subscriber, merchant, amount, intervalSeconds, now,
                              Active, 0, usageEnabled, expiration);
      Ok((PutSubscription(v1, id, sub), id))
  }
}

=== FILE: ints.dfy ===
/** The machine integer widths the contract stores, as bounded subsets of `int`. */
module Ints {

  const U32_MAX: int := 0xFFFF_FFFF
  const U64_MAX: int := 0xFFFF_FFFF_FFFF_FFFF
  const I128_MIN: int := -0x8000_0000_0000_0000_0000_0000_0000_0000
  const I128_MAX: int := 0x7FFF_FFFF_FFFF_FFFF_FFFF_FFFF_FFFF_FFFF

  type U32 = x: int | 0 <= x <= U32_MAX
  type U64 = x: int | 0 <= x <= U64_MAX
  type I128 = x: int | I128_MIN <= x <= I128_MAX

  predicate InI128(x: int) {
    I128_MIN <= x <= I128_MAX
  }

  /** The smaller of two integers; `Min(x, U64_MAX)` is a saturating u64 result. */
  function Min(a: int, b: int): int {
    if a <= b then a else b
  }
}

=== FILE: invariants.dfy ===
/** Whole-vault invariants and how every state-changing operation relates the vault before to
    the vault after. */
module Invariants {
  import opened Wrappers
  import opened Ints
  import opened Types
  import opened State
  import opened StateMachine
  import opened Ids
  import opened ChargeCore
  import opened Lifecycle
  import opened Admin
  import opened Merchant

  /** A well-formed vault: every stored id was handed out by the allocator, balances are never
      negative, and the replay record matches the last
      payments. */
  predicate Wf(v: Vault) {
    && (forall id :: id in v.subscriptions ==> id < SubscriptionCount(v))
    && (forall id :: id in v.subscriptions ==> v.subscriptions[id].prepaidBalance >= 0)
    && (forall m :: m in v.merchantBalances ==> v.merchantBalances[m] >= 0)
    && PeriodsTracked(v)
  }

  /** The agreement fields of a subscription are fixed once created, and the last payment
      only moves forward. */
  predicate TermsKept(a: Subscription, b: Subscription) {
    && b.subscriber == a.subscriber
    && b.merchant == a.merchant
    && b.amount == a.amount
    && b.intervalSeconds == a.intervalSeconds
    && b.usageEnabled == a.usageEnabled
    && b.expiration == a.expiration
    && b.lastPaymentTimestamp >= a.lastPaymentTimestamp
  }

  /** `b` is a legal successor of `a`: no record disappears, terms are kept, and every status
      change is one the transition table allows. */
  predicate Evolves(a: Vault, b: Vault) {
    && a.subscriptions.Keys <= b.subscriptions.Keys
    && SubscriptionCount(a) <= SubscriptionCount(b)
    && forall id :: id in a.subscriptions ==>
         && TermsKept(a.subscriptions[id], b.subscriptions[id])
         && CanTransition(a.subscriptions[id].status, b.subscriptions[id].status)
  }

  /** What interval charging can do to records: keep the status or lapse Active to
      InsufficientBalance, never anything else, and leave a cancelled record exactly as it
      is. Unlike `Evolves`, this is transitive. */
  predicate ChargeEvolves(a: Vault, b: Vault) {
    && a.subscriptions.Keys == b.subscriptions.Keys
    && a.nextId == b.nextId
    && forall id :: id in a.subscriptions ==>
         && TermsKept(a.subscriptions[id], b.subscriptions[id])
         && (a.subscriptions[id].status == Cancelled ==> b.subscriptions[id] == a.subscriptions[id])
         && (|| b.subscriptions[id].status == a.subscriptions[id].status
             || (a.subscriptions[id].status == Active
                 && b.subscriptions[id].status == Status.InsufficientBalance))
  }

  lemma ChargeEvolvesIsEvolves(a: Vault, b: Vault)
    requires ChargeEvolves(a, b)
    ensures Evolves(a, b)
  {
  }

  /** An interval charge keeps the vault well formed and changes records only by keeping
      their status or lapsing Active to InsufficientBalance. */
  lemma ChargeOnePreserves(v: Vault, id: U32, now: U64)
    requires Wf(v)
    ensures Wf(ChargeOne(v, id, now).vault)
    ensures ChargeEvolves(v, ChargeOne(v, id, now).vault)
  {
    ChargeKeepsPeriodsTracked(v, id, now);
  }

  /** A batch charge keeps the vault well formed, no record ever changes status other
      than lapsing from Active to InsufficientBalance, and cancelled records are untouched. */
  lemma {:induction false} ChargeAllPreserves(v: Vault, ids: seq<U32>, now: U64)
    requires Wf(v)
    ensures Wf(ChargeAll(v, ids, now).0)
    ensures ChargeEvolves(v, ChargeAll(v, ids, now).0)
    ensures forall id :: id in v.subscriptions && v.subscriptions[id].status == Cancelled
              ==> ChargeAll(v, ids, now).0.subscriptions[id] == v.subscriptions[id]
    decreases |ids|
  {
    if |ids| > 0 {
      var v1 := ChargeOne(v, ids[0], now).vault;
      ChargeOnePreserves(v, ids[0], now);
      ChargeAllPreserves(v1, ids[1..], now);
    }
  }

  /** A usage charge keeps the vault well formed; its only status change is the Active to
      InsufficientBalance lapse when the balance reaches zero. */
  lemma ChargeUsagePreserves(v: Vault, id: U32, usage: I128)
    requires Wf(v) && ChargeUsageOne(v, id, usage).Ok?
    ensures Wf(ChargeUsageOne(v, id, usage).value)
    ensures ChargeEvolves(v, ChargeUsageOne(v, id, usage).value)
  {
  }

  /** Pause, resume and cancel keep the vault well formed and change one status along the
      transition table; everything else in the record is untouched. */
  lemma ChangeStatusPreserves(v: Vault, id: U32, who: Address, target: Status)
    requires Wf(v) && ChangeStatus(v, id, who, target).Ok?
    ensures Wf(ChangeStatus(v, id, who, target).value)
    ensures Evolves(v, ChangeStatus(v, id, who, target).value)
  {
  }

  /** A deposit keeps the vault well formed and changes no status. */
  lemma DepositPreserves(v: Vault, id: U32, amount: I128)
    requires Wf(v) && DepositFunds(v, id, amount).Ok?
    ensures Wf(DepositFunds(v, id, amount).value)
    ensures ChargeEvolves(v, DepositFunds(v, id, amount).value)
  {
  }

  /** Creating a subscription keeps the vault well formed, and the new id was never used
      before: existing records are not overwritten. */
  lemma CreatePreserves(v: Vault, subscriber: Address, merchant: Address, amount: I128,
                        interval: U64, usage: bool, expiration: Option<U64>, now: U64)
    requires Wf(v)
    requires CreateSubscription(v, subscriber, merchant, amount, interval, usage, expiration, now).Ok?
    ensures var (v1, id) := CreateSubscription(v, subscriber, merchant, amount, interval, usage, expiration, now).value;
            && id !in v.subscriptions
            && Wf(v1)
            && Evolves(v, v1)
  {
  }

  /** A batch withdrawal keeps the vault well formed and leaves every subscription alone. */
  lemma WithdrawAllPreserves(v: Vault, m: Address, amounts: seq<I128>)
    requires Wf(v)
    ensures Wf(WithdrawAll(v, m, amounts).0)
    ensures WithdrawAll(v, m, amounts).0.subscriptions == v.subscriptions
  {
    var v1 := WithdrawAll(v, m, amounts).0;
    WithdrawAllAccounting(v, m, amounts);
    forall k | k in v1.merchantBalances
      ensures v1.merchantBalances[k] >= 0
    {
      if k != m {
        assert MerchantBalance(v1, k) == MerchantBalance(v, k);
      }
    }
  }
}

=== FILE: lifecycle.dfy ===
/** Subscriber-facing lifecycle: pause, resume, cancel and deposits. */
module Lifecycle {
  import opened Wrappers
  import opened Ints
  import opened Types
  import opened State
  import opened SafeMath
  import opened StateMachine

  /** The shared body of pause, resume and cancel: the record must exist, `authorizer` must be
      its subscriber, and the move must be allowed by the transition table. Only the status
      changes. */
  function ChangeStatus(v: Vault, id: U32, authorizer: Address, target: Status): (r: Result<Vault, Error>)
    ensures id !in v.subscriptions ==> r == Err(NotFound)
    ensures (id in v.subscriptions && authorizer != v.subscriptions[id].subscriber)
            ==> r == Err(Unauthorized)
    ensures (id in v.subscriptions && authorizer == v.subscriptions[id].subscriber
             && !CanTransition(v.subscriptions[id].status, target))
            ==> r == Err(InvalidStatusTransition)
    ensures r.Ok? <==> (id in v.subscriptions && authorizer == v.subscriptions[id].subscriber
                        && CanTransition(v.subscriptions[id].status, target))
    ensures r.Ok? ==> r.value == PutSubscription(v, id, v.subscriptions[id].(status := target))
  {
    match GetSubscription(v, id)
    case Err(e) => Err(e)
    case Ok(s) =>
      if authorizer != s.subscriber then Err(Unauthorized)
      else
        match ValidateStatusTransition(s.status, target)
        case Fail(e) => Err(e)
        case Pass => Ok(PutSubscription(v, id, s.(status := target)))
  }

  /** `pause_subscription`: allowed from Active (and a no-op when already Paused). */
  function Pause(v: Vault, id: U32, authorizer: Address): (r: Result<Vault, Error>)
    ensures r.Ok? <==> (id in v.subscriptions && authorizer == v.subscriptions[id].subscriber
                        && v.subscriptions[id].status in {Active, Paused})
    ensures r.Ok? ==> r.value == PutSubscription(v, id, v.subscriptions[id].(status := Paused))
  {
    ChangeStatus(v, id, authorizer, Paused)
  }

  /** `resume_subscription`: allowed from Paused or InsufficientBalance (and a no-op when
      already Active); never from Cancelled. */
  function Resume(v: Vault, id: U32, authorizer: Address): (r: Result<Vault, Error>)
    ensures r.Ok? <==> (id in v.subscriptions && authorizer == v.subscriptions[id].subscriber
                        && v.subscriptions[id].status != Cancelled)
    ensures r.Ok? ==> r.value == PutSubscription(v, id, v.subscriptions[id].(status := Active))
  {
    ChangeStatus(v, id, authorizer, Active)
  }

  /** `cancel_subscription`: allowed from every status; Cancelled is terminal. */
  function Cancel(v: Vault, id: U32, authorizer: Address): (r: Result<Vault, Error>)
    ensures r.Ok? <==> (id in v.subscriptions && authorizer == v.subscriptions[id].subscriber)
    ensures r.Ok? ==> r.value == PutSubscription(v, id, v.subscriptions[id].(status := Cancelled))
  {
    ChangeStatus(v, id, authorizer, Cancelled)
  }

  /** `deposit_funds`: the minimum top-up gate (missing configuration is `NotFound`), then
      the record, which must not be cancelled (`NotActive`: a cancelled record is frozen),
      then a checked credit of the prepaid balance. Nothing but the balance changes; the
      status is left as it is. */
  function DepositFunds(v: Vault, id: U32, amount: I128): (r: Result<Vault, Error>)
    ensures v.minTopup.None? ==> r == Err(NotFound)
    ensures v.minTopup.Some? && amount < v.minTopup.value ==> r == Err(BelowMinimumTopup)
    ensures v.minTopup.Some? && amount >= v.minTopup.value && id in v.subscriptions
            && v.subscriptions[id].status == Cancelled
            ==> r == Err(NotActive)
    ensures r.Ok? <==> (&& v.minTopup.Some? && amount >= v.minTopup.value
                        && id in v.subscriptions && v.subscriptions[id].status != Cancelled
                        && amount >= 0
                        && v.subscriptions[id].prepaidBalance + amount <= I128_MAX)
    ensures r.Ok? ==> r.value == PutSubscription(v, id, v.subscriptions[id].(
                        prepaidBalance := v.subscriptions[id].prepaidBalance + amount))
  {
    match v.minTopup
    case None => Err(NotFound)
    case Some(minTopup) =>
      if amount < minTopup then Err(BelowMinimumTopup)
      else
        match GetSubscription(v, id)
        case Err(e) => Err(e)
        case Ok(s) =>
          if s.status == Cancelled then Err(NotActive)
          else
            match SafeAddBalance(s.prepaidBalance, amount)
            case Err(e) => Err(e)
            case Ok(b) => Ok(PutSubscription(v, id, s.(prepaidBalance := b)))
  }

  /** Pausing twice is the same as pausing once, and cancelling twice is the same as
      cancelling once. */
  lemma PauseAndCancelIdempotent(v: Vault, id: U32, who: Address)
    ensures Pause(v, id, who).Ok? ==> Pause(Pause(v, id, who).value, id, who) == Pause(v, id, who)
    ensures Cancel(v, id, who).Ok? ==> Cancel(Cancel(v, id, who).value, id, who) == Cancel(v, id, who)
  {
    if Pause(v, id, who).Ok? {
      var v1 := Pause(v, id, who).value;
      assert v1.subscriptions[id] == v.subscriptions[id].(status := Paused);
      assert v1.subscriptions[id].(status := Paused) == v1.subscriptions[id];
      assert v1.subscriptions[id := v1.subscriptions[id]] == v1.subscriptions;
    }
    if Cancel(v, id, who).Ok? {
      var v1 := Cancel(v, id, who).value;
      assert v1.subscriptions[id].(status := Cancelled) == v1.subscriptions[id];
      assert v1.subscriptions[id := v1.subscriptions[id]] == v1.subscriptions;
    }
  }

  /** Pausing an active subscription and resuming it gives back exactly the original vault. */
  lemma PauseResumeRoundTrip(v: Vault, id: U32, who: Address)
    requires Pause(v, id, who).Ok? && v.subscriptions[id].status == Active
    ensures Resume(Pause(v, id, who).value, id, who) == Ok(v)
  {
    var s := v.subscriptions[id];
    var v1 := Pause(v, id, who).value;
    assert v1.subscriptions[id] == s.(status := Paused);
    assert v1.subscriptions[id].(status := Active) == s;
    assert Resume(v1, id, who) == Ok(PutSubscription(v1, id, s));
    assert v1.subscriptions[id := s] == v.subscriptions;
  }

  /** Once cancelled, a subscription stays cancelled: pausing, resuming and depositing are
      refused, and cancelling again changes nothing. */
  lemma CancelledIsFinal(v: Vault, id: U32, who: Address, other: Address, amount: I128)
    requires Cancel(v, id, who).Ok?
    ensures var v1 := Cancel(v, id, who).value;
            && Pause(v1, id, other).Err?
            && Resume(v1, id, other).Err?
            && DepositFunds(v1, id, amount).Err?
            && (Cancel(v1, id, other).Ok? ==> Cancel(v1, id, other) == Ok(v1))
  {
    var v1 := Cancel(v, id, who).value;
    if Cancel(v1, id, other).Ok? {
      assert v1.subscriptions[id].(status := Cancelled) == v1.subscriptions[id];
      assert v1.subscriptions[id := v1.subscriptions[id]] == v1.subscriptions;
    }
  }
}

=== FILE: merchant.dfy ===
/** Merchant payouts: single and batched withdrawals from a merchant's accumulated balance. */
module Merchant {
  import opened Wrappers
  import opened Ints
  import opened Types
  import opened State
  import opened SafeMath

  /** The vault with merchant `m`'s balance set to `b`. */
  function WithBalance(v: Vault, m: Address, b: I128): Vault {
    v.(merchantBalances := v.merchantBalances[m := b])
  }

  /** `do_single_withdraw`: debits `amount` from the merchant's ledger entry. An overdraft is
      refused with `InsufficientBalance`, a negative amount with `Underflow`; a refusal changes
      nothing. */
  function SingleWithdraw(v: Vault, m: Address, amount: I128): (r: Result<Vault, Error>)
    ensures r.Ok? <==> 0 <= amount <= MerchantBalance(v, m)
    ensures amount > MerchantBalance(v, m) ==> r == Err(Error.InsufficientBalance)
    ensures r.Ok? ==> r.value == WithBalance(v, m, MerchantBalance(v, m) - amount)
  {
    var balance := MerchantBalance(v, m);
    if amount > balance then Err(Error.InsufficientBalance)
    else
      match SafeSubBalance(balance, amount)
      case Err(e) => Err(e)
      case Ok(left) => Ok(WithBalance(v, m, left))
  }

  /** One entry of the batch: a non-positive amount is reported as `InsufficientBalance`
      without being attempted; otherwise the single withdrawal's outcome. A failed entry
      leaves the vault as it was. */
  function WithdrawEntry(v: Vault, m: Address, amount: I128): (r: (Vault, BatchChargeResult))
    ensures r.1.success <==> 0 < amount <= MerchantBalance(v, m)
    ensures r.1.success ==> r.0 == WithBalance(v, m, MerchantBalance(v, m) - amount)
    ensures !r.1.success ==> r.0 == v
    ensures amount <= 0 ==> r.1 == ReportOf(Fail(Error.InsufficientBalance))
    ensures amount > MerchantBalance(v, m) ==> r.1 == ReportOf(Fail(Error.InsufficientBalance))
  {
    if amount <= 0 then (v, ReportOf(Fail(Error.InsufficientBalance)))
    else
      match SingleWithdraw(v, m, amount)
      case Ok(v1) => (v1, ReportOf(Pass))
      case Err(e) => (v, ReportOf(Fail(e)))
  }

  /** The loop of `batch_withdraw_merchant_funds`: every entry is attempted, in order,
      against the balance the earlier entries left. */
  function WithdrawAll(v: Vault, m: Address, amounts: seq<I128>): (r: (Vault, seq<BatchChargeResult>))
    ensures |r.1| == |amounts|
    decreases |amounts|
  {
    if |amounts| == 0 then (v, [])
    else
      var first := WithdrawEntry(v, m, amounts[0]);
      var rest := WithdrawAll(first.0, m, amounts[1..]);
      (rest.0, [first.1] + rest.1)
  }

  /** `batch_withdraw_merchant_funds`: one report per amount, in input order, each the
      outcome of that entry against the balance the earlier entries left; the balance drops by
      exactly the successful amounts. The merchant's single authorisation is outside the
      model, so the batch itself never fails. */
  function BatchWithdraw(v: Vault, m: Address, amounts: seq<I128>)
    : (r: Result<(Vault, seq<BatchChargeResult>), Error>)
    ensures r.Ok?
    ensures |r.value.1| == |amounts|
    ensures forall i :: 0 <= i < |amounts| ==>
              r.value.1[i] == WithdrawEntry(WithdrawAll(v, m, amounts[..i]).0, m, amounts[i]).1
    ensures MerchantBalance(v, m) >= 0 ==>
              && MerchantBalance(v, m) - MerchantBalance(r.value.0, m) == SucceededTotal(amounts, r.value.1)
              && 0 <= MerchantBalance(r.value.0, m) <= MerchantBalance(v, m)
  {
    WithdrawEntriesSemantics(v, m, amounts);
    if MerchantBalance(v, m) >= 0 then
      WithdrawAllAccounting(v, m, amounts);
      Ok(WithdrawAll(v, m, amounts))
    else
      Ok(WithdrawAll(v, m, amounts))
  }

  /** The total of the amounts whose entries succeeded. */
  function SucceededTotal(amounts: seq<I128>, reports: seq<BatchChargeResult>): int
    requires |amounts| == |reports|
    decreases |amounts|
  {
    if |amounts| == 0 then 0
    else (if reports[0].success then amounts[0] else 0) + SucceededTotal(amounts[1..], reports[1..])
  }

  /** Batch accounting: the merchant's balance drops by exactly the total of the successful
      entries (never double-debited), never goes negative, and nothing else in the vault
      changes. */
  lemma {:induction false} WithdrawAllAccounting(v: Vault, m: Address, amounts: seq<I128>)
    requires MerchantBalance(v, m) >= 0
    ensures var r := WithdrawAll(v, m, amounts);
            && MerchantBalance(v, m) - MerchantBalance(r.0, m) == SucceededTotal(amounts, r.1)
            && 0 <= MerchantBalance(r.0, m) <= MerchantBalance(v, m)
            && (forall o :: o != m ==> MerchantBalance(r.0, o) == MerchantBalance(v, o))
            && r.0.(merchantBalances := v.merchantBalances) == v
    decreases |amounts|
  {
    if |amounts| > 0 {
      var first := WithdrawEntry(v, m, amounts[0]);
      WithdrawAllAccounting(first.0, m, amounts[1..]);
      var rest := WithdrawAll(first.0, m, amounts[1..]);
      assert WithdrawAll(v, m, amounts).1 == [first.1] + rest.1;
      assert ([first.1] + rest.1)[1..] == rest.1;
    }
  }

  /** Entry `i`'s report depends only on its amount and the balance the earlier entries
      left: it succeeds exactly when the amount is positive and covered. */
  lemma {:induction false} WithdrawEntrySemantics(v: Vault, m: Address, amounts: seq<I128>, i: nat)
    requires i < |amounts|
    ensures var before := WithdrawAll(v, m, amounts[..i]).0;
            WithdrawAll(v, m, amounts).1[i] == WithdrawEntry(before, m, amounts[i]).1
    decreases i
  {
    var first := WithdrawEntry(v, m, amounts[0]);
    var rest := WithdrawAll(first.0, m, amounts[1..]);
    assert WithdrawAll(v, m, amounts).1 == [first.1] + rest.1;
    if i > 0 {
      WithdrawEntrySemantics(first.0, m, amounts[1..], i - 1);
      assert amounts[..i][0] == amounts[0];
      assert amounts[..i][1..] == amounts[1..][..i - 1];
    }
  }

  /** `WithdrawEntrySemantics` for every entry at once. */
  lemma WithdrawEntriesSemantics(v: Vault, m: Address, amounts: seq<I128>)
    ensures forall i :: 0 <= i < |amounts| ==>
              WithdrawAll(v, m, amounts).1[i] == WithdrawEntry(WithdrawAll(v, m, amounts[..i]).0, m, amounts[i]).1
  {
    forall i | 0 <= i < |amounts|
      ensures WithdrawAll(v, m, amounts).1[i] == WithdrawEntry(WithdrawAll(v, m, amounts[..i]).0, m, amounts[i]).1
    {
      WithdrawEntrySemantics(v, m, amounts, i);
    }
  }
}

=== FILE: queries.dfy ===
/** Read-only views: the next-charge estimate. */
module Queries {
  import opened Wrappers
  import opened Ints
  import opened Types
  import opened State
  import opened ChargeCore

  /** `compute_next_charge_info`: when the interval gate next opens (saturated at u64::MAX),
      and whether a charge is expected at all given the status. */
  function ComputeNextChargeInfo(s: Subscription): (r: NextChargeInfo)
    ensures r.nextChargeTimestamp >= s.lastPaymentTimestamp
    ensures forall now: U64 :: IntervalElapsed(s, now) ==> now >= r.nextChargeTimestamp
    ensures r.nextChargeTimestamp < U64_MAX ==>
              forall now: U64 :: IntervalElapsed(s, now) <==> now >= r.nextChargeTimestamp
    ensures r.nextChargeTimestamp == U64_MAX <==> s.lastPaymentTimestamp + s.intervalSeconds >= U64_MAX
    ensures r.isChargeExpected <==> s.status in {Active, Status.InsufficientBalance}
  {
    var due := s.lastPaymentTimestamp + s.intervalSeconds;
    NextChargeInfo(if due <= U64_MAX then due else U64_MAX,
                   s.status == Active || s.status == Status.InsufficientBalance)
  }

  /** `get_next_charge_info`: the estimate for a stored subscription, or `NotFound`. */
  function GetNextChargeInfo(v: Vault, id: U32): (r: Result<NextChargeInfo, Error>)
    ensures r.Err? <==> id !in v.subscriptions
    ensures r.Err? ==> r.error == NotFound
    ensures r.Ok? ==> r.value == ComputeNextChargeInfo(v.subscriptions[id])
  {
    match GetSubscription(v, id)
    case Err(e) => Err(e)
    case Ok(s) => Ok(ComputeNextChargeInfo(s))
  }

  /** An interval charge succeeds only when the estimate expects one and its time has come. */
  lemma ChargeOnlyWhenExpected(v: Vault, id: U32, now: U64)
    requires ChargeOne(v, id, now).outcome.Pass?
    ensures GetNextChargeInfo(v, id).Ok?
    ensures GetNextChargeInfo(v, id).value.isChargeExpected
    ensures now >= GetNextChargeInfo(v, id).value.nextChargeTimestamp
  {
  }

  /** When no charge is expected (paused or cancelled), every interval charge attempt is
      refused and changes nothing: with `SubscriptionExpired` once the end date is reached,
      with `NotActive` before it. */
  lemma NotExpectedMeansNoCharge(v: Vault, id: U32, now: U64)
    requires GetNextChargeInfo(v, id).Ok? && !GetNextChargeInfo(v, id).value.isChargeExpected
    ensures ChargeOne(v, id, now)
            == Step(v, Fail(if Expired(v.subscriptions[id], now) then SubscriptionExpired else NotActive))
  {
  }

  /** A successful charge at `now` moves the estimate to one interval after `now`. */
  lemma ChargeAdvancesSchedule(v: Vault, id: U32, now: U64)
    requires ChargeOne(v, id, now).outcome.Pass?
    ensures var s := v.subscriptions[id];
            var info := GetNextChargeInfo(ChargeOne(v, id, now).vault, id);
            && info.Ok?
            && info.value.isChargeExpected
            && info.value.nextChargeTimestamp == Min(now + s.intervalSeconds, U64_MAX)
  {
  }

  /** A due time past u64::MAX shows as a saturated estimate, and a charge that reaches the
      interval gate reports `Overflow` instead of waiting forever. */
  lemma OverflowingDueTimeIsReported(v: Vault, id: U32, now: U64)
    requires id in v.subscriptions && v.subscriptions[id].status == Active
    requires !Expired(v.subscriptions[id], now) && !AlreadySettled(v, id, now)
    requires v.subscriptions[id].lastPaymentTimestamp + v.subscriptions[id].intervalSeconds > U64_MAX
    ensures GetNextChargeInfo(v, id) == Ok(NextChargeInfo(U64_MAX, true))
    ensures ChargeOne(v, id, now) == Step(v, Fail(Overflow))
  {
  }
}

=== FILE: safe_math.dfy ===
/** Checked signed 128-bit arithmetic behind every balance mutation (the crate's `safe_math`
    module, whose behaviour is fixed by the arithmetic tests). */
module SafeMath {
  import opened Wrappers
  import opened Ints
  import opened Types

  /** `a + b`, or `Overflow` when the exact sum leaves the i128 range in either direction. */
  function SafeAdd(a: I128, b: I128): (r: Result<I128, Error>)
    ensures r.Ok? <==> InI128(a + b)
    ensures r.Ok? ==> r.value == a + b
    ensures r.Err? ==> r.error == Overflow
  {
    if InI128(a + b) then Ok(a + b) else Err(Overflow)
  }

  /** `a - b`, or `Underflow` when the exact difference leaves the i128 range in either
      direction (so `0 - i128::MIN` reports `Underflow`). The result may be negative. */
  function SafeSub(a: I128, b: I128): (r: Result<I128, Error>)
    ensures r.Ok? <==> InI128(a - b)
    ensures r.Ok? ==> r.value == a - b
    ensures r.Err? ==> r.error == Underflow
  {
    if InI128(a - b) then Ok(a - b) else Err(Underflow)
  }

  /** Credits `amount` to `balance`: a negative credit is `Underflow`, a sum above i128::MAX
      is `Overflow`. */
  function SafeAddBalance(balance: I128, amount: I128): (r: Result<I128, Error>)
    ensures amount < 0 ==> r == Err(Underflow)
    ensures amount >= 0 && balance + amount > I128_MAX ==> r == Err(Overflow)
    ensures r.Ok? <==> 0 <= amount && balance + amount <= I128_MAX
    ensures r.Ok? ==> r.value == balance + amount
  {
    if amount < 0 then Err(Underflow) else SafeAdd(balance, amount)
  }

  /** Debits `amount` from `balance`: a negative debit, or one that would leave a negative
      balance, is `Underflow`; draining to exactly zero is allowed. */
  function SafeSubBalance(balance: I128, amount: I128): (r: Result<I128, Error>)
    ensures r.Ok? <==> 0 <= amount <= balance
    ensures r.Ok? ==> r.value == balance - amount && r.value >= 0
    ensures r.Err? ==> r.error == Underflow
  {
    if amount < 0 then Err(Underflow)
    else match SafeSub(balance, amount)
      case Err(e) => Err(e)
      case Ok(v) => if v < 0 then Err(Underflow) else Ok(v)
  }

  /** `Underflow` exactly for negative values. */
  function ValidateNonNegative(x: I128): (r: Outcome<Error>)
    ensures r.Fail? <==> x < 0
    ensures r.Fail? ==> r.error == Underflow
  {
    if x < 0 then Fail(Underflow) else Pass
  }

  /** Debiting what was just credited restores the original non-negative balance. */
  lemma SubAfterAdd(a: I128, b: I128)
    requires a >= 0
    requires SafeAddBalance(a, b).Ok?
    ensures SafeSubBalance(SafeAddBalance(a, b).value, b) == Ok(a)
  {
  }

  /** Crediting what was just debited restores the original balance. */
  lemma AddAfterSub(a: I128, b: I128)
    requires SafeSubBalance(a, b).Ok?
    ensures SafeAddBalance(SafeSubBalance(a, b).value, b) == Ok(a)
  {
  }
}

=== FILE: state.dfy ===
/** The contract's instance storage, as one immutable record. Each optional field is a
    named storage slot that may be absent; the accessors apply the defaults the code uses
    when it reads a missing slot. */
module State {
  import opened Wrappers
  import opened Ints
  import opened Types

  datatype Vault = Vault(
    /** Subscription records keyed by id. */
    subscriptions: map<U32, Subscription>,
    /** The `next_id` slot: how many ids have been handed out. */
    nextId: Option<U32>,
    /** The `admin` slot. */
    admin: Option<Address>,
    /** The `min_topup` slot. */
    minTopup: Option<I128>,
    /** The `stopped` slot (emergency stop flag). */
    stopped: Option<bool>,
    /** Per-merchant accumulated earnings; a missing entry is a zero balance. */
    merchantBalances: map<Address, I128>,
    /** For each charged subscription, the billing period its last interval charge settled. */
    settledPeriods: map<U32, U64>)

  /** The state right after `init(admin, min_topup)`: no subscriptions, nothing stopped. */
  function Initial(admin: Address, minTopup: I128): Vault {
    Vault(map[], None, Some(admin), Some(minTopup), None, map[], map[])
  }

  /** The number of ids allocated so far, 0 when the counter slot was never written
      (`get_subscription_count`). */
  function SubscriptionCount(v: Vault): U32 {
    v.nextId.GetOr(0)
  }

  /** A merchant's accumulated balance, 0 when it has none recorded. */
  function MerchantBalance(v: Vault, m: Address): I128 {
    if m in v.merchantBalances then v.merchantBalances[m] else 0
  }

  /** `get_subscription`: the stored record or `NotFound`. */
  function GetSubscription(v: Vault, id: U32): (r: Result<Subscription, Error>)
    ensures r.Ok? <==> id in v.subscriptions
    ensures r.Ok? ==> r.value == v.subscriptions[id]
    ensures r.Err? ==> r.error == NotFound
  {
    if id in v.subscriptions then Ok(v.subscriptions[id]) else Err(NotFound)
  }

  /** The vault with record `id` replaced by `s`. */
  function PutSubscription(v: Vault, id: U32, s: Subscription): Vault {
    v.(subscriptions := v.subscriptions[id := s])
  }

  /** The result of an operation whose failure may still persist a change (the interval
      charge records `InsufficientBalance` even though it reports an error). */
  datatype Step = Step(vault: Vault, outcome: Outcome<Error>)
}

=== FILE: state_machine.dfy ===
/** The subscription status state machine: validation, the boolean wrapper, and the list of
    targets offered for introspection. */
module StateMachine {
  import opened Wrappers
  import opened Types

  /** The documented transition table, as an explicit set of (from, to) edges. */
  const Edges: set<(Status, Status)> := {
    (Active, Paused), (Active, Cancelled), (Active, Status.InsufficientBalance),
    (Paused, Active), (Paused, Cancelled),
    (Status.InsufficientBalance, Active), (Status.InsufficientBalance, Cancelled)
  }

  /** Accepts a same-status transition and exactly the edges of the table; anything else is
      `InvalidStatusTransition`. */
  function ValidateStatusTransition(from: Status, to: Status): (r: Outcome<Error>)
    ensures r.Pass? <==> from == to || (from, to) in Edges
    ensures r.Fail? ==> r.error == InvalidStatusTransition
  {
    if from == to then Pass
    else
      var valid := match from
        case Active => to == Paused || to == Cancelled || to == Status.InsufficientBalance
        case Paused => to == Active || to == Cancelled
        case Cancelled => false
        case InsufficientBalance => to == Active || to == Cancelled;
      if valid then Pass else Fail(InvalidStatusTransition)
  }

  /** Boolean form of the validation. */
  predicate CanTransition(from: Status, to: Status)
  {
    ValidateStatusTransition(from, to).Pass?
  }

  /** The targets reachable in one step, in the source's order. */
  function AllowedTransitions(s: Status): (r: seq<Status>)
    ensures forall t :: t in r <==> t != s && CanTransition(s, t)
    ensures forall i, j :: 0 <= i < j < |r| ==> r[i] != r[j]
  {
    match s
    case Active => [Paused, Cancelled, Status.InsufficientBalance]
    case Paused => [Active, Cancelled]
    case Cancelled => []
    case InsufficientBalance => [Active, Cancelled]
  }

  /** `CanTransition` agrees with the table, and `Cancelled` has no way out. */
  lemma CanTransitionTable(from: Status, to: Status)
    ensures CanTransition(from, to) <==> from == to || (from, to) in Edges
    ensures from == Cancelled && to != Cancelled ==> !CanTransition(from, to)
    ensures ValidateStatusTransition(from, from) == Pass
  {
  }

  /** Every status sequence whose steps each pass validation and that starts in `Cancelled`
      stays in `Cancelled`. */
  lemma {:induction false} CancelledAbsorbing(path: seq<Status>)
    requires |path| > 0 && path[0] == Cancelled
    requires forall i :: 0 <= i < |path| - 1 ==> CanTransition(path[i], path[i + 1])
    ensures forall i :: 0 <= i < |path| ==> path[i] == Cancelled
  {
    if |path| > 1 {
      assert CanTransition(path[0], path[1]);
      var tail := path[1..];
      assert forall i :: 0 <= i < |tail| - 1 ==> CanTransition(tail[i], tail[i + 1]) by {
        forall i | 0 <= i < |tail| - 1
          ensures CanTransition(tail[i], tail[i + 1])
        {
          assert tail[i] == path[i + 1] && tail[i + 1] == path[i + 2];
        }
      }
      CancelledAbsorbing(tail);
      forall i | 0 <= i < |path|
        ensures path[i] == Cancelled
      {
        if i > 0 { assert path[i] == tail[i - 1]; }
      }
    }
  }
}

=== FILE: types.dfy ===
/** Contract types: the error taxonomy with its wire codes, batch results, and the
    subscription record with its lifecycle status. */
module Types {
  import opened Wrappers
  import opened Ints

  /** An account identity (Soroban `Address`); only equality matters to the core. */
  datatype Address = Address(key: nat)

  /** The contract error enum. Every variant of the crate's error type is listed, plus the
      three variants the code returns but that enum does not declare: `Underflow` (checked
      arithmetic), `ContractStopped` (emergency stop) and `SubscriptionLimitReached`
      (id exhaustion). */
  datatype Error =
    | Unauthorized
    | NotAdmin
    | NotFound
    | SubscriptionNotFound
    | ConfigNotFound
    | InvalidArguments
    | InvalidAmount
    | InvalidInterval
    | InvalidStatusTransition
    | InsufficientBalance
    | BelowMinimumTopup
    | InsufficientMerchantBalance
    | IntervalNotElapsed
    | NotActive
    | SubscriptionExpired
    | Replay
    | UsageNotEnabled
    | InsufficientPrepaidBalance
    | InvalidRecoveryAmount
    | NotConfigured
    | InvalidConfig
    | Overflow
    | Underflow
    | ContractStopped
    | SubscriptionLimitReached

  /** The declared discriminant of each variant (`Error::to_code`). Zero is never used, so
      batch results can reserve it for success, and the code determines the variant. */
  function ToCode(e: Error): (c: U32)
    ensures c != 0
    ensures FromCode(c) == Some(e)
  {
    match e
    case Unauthorized => 401
    case NotAdmin => 403
    case NotFound => 404
    case SubscriptionNotFound => 405
    case ConfigNotFound => 406
    case InvalidArguments => 400
    case InvalidAmount => 407
    case InvalidInterval => 408
    case InvalidStatusTransition => 409
    case InsufficientBalance => 402
    case BelowMinimumTopup => 410
    case InsufficientMerchantBalance => 411
    case IntervalNotElapsed => 1001
    case NotActive => 1002
    case SubscriptionExpired => 1003
    case Replay => 1004
    case UsageNotEnabled => 1005
    case InsufficientPrepaidBalance => 1006
    case InvalidRecoveryAmount => 1007
    case NotConfigured => 1101
    case InvalidConfig => 1102
    case Overflow => 1103
    case Underflow => 1104
    case ContractStopped => 1105
    case SubscriptionLimitReached => 429
  }

  /** The variant a wire code stands for, if any: what a batch caller does with `error_code`. */
  function FromCode(c: int): Option<Error> {
    match c
    case 401 => Some(Unauthorized)
    case 403 => Some(NotAdmin)
    case 404 => Some(NotFound)
    case 405 => Some(SubscriptionNotFound)
    case 406 => Some(ConfigNotFound)
    case 400 => Some(InvalidArguments)
    case 407 => Some(InvalidAmount)
    case 408 => Some(InvalidInterval)
    case 409 => Some(InvalidStatusTransition)
    case 402 => Some(Error.InsufficientBalance)
    case 410 => Some(BelowMinimumTopup)
    case 411 => Some(InsufficientMerchantBalance)
    case 1001 => Some(IntervalNotElapsed)
    case 1002 => Some(NotActive)
    case 1003 => Some(SubscriptionExpired)
    case 1004 => Some(Replay)
    case 1005 => Some(UsageNotEnabled)
    case 1006 => Some(InsufficientPrepaidBalance)
    case 1007 => Some(InvalidRecoveryAmount)
    case 1101 => Some(NotConfigured)
    case 1102 => Some(InvalidConfig)
    case 1103 => Some(Overflow)
    case 1104 => Some(Underflow)
    case 1105 => Some(ContractStopped)
    case 429 => Some(SubscriptionLimitReached)
    case _ => None
  }

  /** Distinct variants have distinct codes. */
  lemma ToCodeInjective(e1: Error, e2: Error)
    ensures ToCode(e1) == ToCode(e2) ==> e1 == e2
  {
  }

  /** One entry of a batch result (`BatchChargeResult`; the merchant batch uses the same shape). */
  datatype BatchChargeResult = BatchChargeResult(success: bool, errorCode: U32)

  /** How a batch reports one item's outcome: success with code 0, or failure with the error's code. */
  function ReportOf(o: Outcome<Error>): (r: BatchChargeResult)
    ensures r.success <==> o.Pass?
    ensures r.success ==> r.errorCode == 0
    ensures !r.success ==> r.errorCode != 0 && FromCode(r.errorCode) == Some(o.error)
  {
    match o
    case Pass => BatchChargeResult(true, 0)
    case Fail(e) => BatchChargeResult(false, ToCode(e))
  }

  /** What a batch caller reads back from a result entry. */
  function DecodeReport(r: BatchChargeResult): Option<Outcome<Error>> {
    if r.success then Some(Pass)
    else match FromCode(r.errorCode)
      case Some(e) => Some(Fail(e))
      case None => None
  }

  /** A batch caller recovers the exact outcome of every item from its result entry. */
  lemma ReportRoundTrip(o: Outcome<Error>)
    ensures DecodeReport(ReportOf(o)) == Some(o)
  {
  }

  /** The lifecycle state of a subscription (`SubscriptionStatus`). */
  datatype Status = Active | Paused | Cancelled | InsufficientBalance

  /** A stored subscription; `expiration` is `None` for an open-ended agreement. */
  datatype Subscription = Subscription(
    subscriber: Address,
    merchant: Address,
    amount: I128,
    intervalSeconds: U64,
    lastPaymentTimestamp: U64,
    status: Status,
    prepaidBalance: I128,
    usageEnabled: bool,
    expiration: Option<U64>)

  /** Projection of the next billing attempt (`NextChargeInfo`). */
  datatype NextChargeInfo = NextChargeInfo(nextChargeTimestamp: U64, isChargeExpected: bool)

  /** The documented reason tag of a stranded-funds recovery. */
  datatype RecoveryReason = AccidentalTransfer | DeprecatedFlow | UnreachableSubscriber
}

=== FILE: wrappers.dfy ===
/** Failure-carrying result types shared by every module of the vault model. */
module Wrappers {

  /** A storage slot or lookup that may be empty. */
  datatype Option<+T> = None | Some(value: T) {

    /** The stored value, or `default` when the slot is empty (Rust's `unwrap_or`). */
    function GetOr(default: T): T {
      match this
      case Some(v) => v
      case None => default
    }
  }

  /** Rust's `Result<T, E>`. */
  datatype Result<+T, +E> = Ok(value: T) | Err(error: E)

  /** Rust's `Result<(), E>`: success without a value. */
  datatype Outcome<+E> = Pass | Fail(error: E)
}
